=== FILE: README.md ===
# Tube upload naming and request decisions, in Dafny

This project models the naming and decision layer of the Tube video server's
application package (`app/app.go`). It does not model the HTTP plumbing
around that layer. The model covers:

- **Path stems.** `filepath.Ext` and `filepath.Base` are modelled exactly for
  Unix paths: `Base("")` is `"."` and an all-separator path gives `"/"`.
  `pathWithoutExtension` and `basenameWithoutExtension` are built on them
  (module `GoPath`).
- **Sidecar and derivative names.** A video's thumbnail is `<stem>.jpg`. A
  quality derivative is `<stem>#<suffix>.mp4`. Playback looks a derivative up
  by the same rule (module `Sidecars`).
- **Collision-free upload names.** The probes `fileExistsAtLocation` and
  `fileExistsAtAnyLocation` run against a filesystem oracle. That oracle
  supplies `securejoin.SecureJoin` and `os.Stat` results. The retry loop of
  `newVideoFileName` draws its `shortuuid.New()` tokens from a token stream.
  The loop's `err` shadows the function's named result, and the model keeps
  that quirk: a failing probe ends the loop, and the current name comes back
  with a nil error (module `Collisions`).
- **Request decisions.** The model covers:
  - the quality switch of `videoHandler`, including the on-the-fly fallback;
  - the quality normalisation and sort switch of `pageHandler`;
  - the thumbnail choice of `thumbHandler`;
  - the `preserveUploadFilenameIsEnabled` disjunction;
  - the Content-Length gate of `importHandler`;
  - the import's choice of target collection (modules `Requests`, `Upload`,
    `RemoteImport`).
- **Publish order.** The POST branches of `uploadHandler` and `importHandler`
  are step machines. Each external step is reduced to success or failure.
  The state is the set of files present in the library (modules `Upload`,
  `RemoteImport`, `Publishing`).

The code does the following, and the model follows it:

- An upload's name always starts from the uploaded file's own name.
  `preserveUploadFilenameIsEnabled` is never called, so neither the global
  switch nor the per-collection switch chooses between the file name and a
  random token.
- Uploads have no size check. `uploadParserBuffer` only sets how much of the
  form is held in memory.
- An import never checks its random master name for collisions.
- An import scales its derivatives from the already published master, not
  from the downloaded source. It writes them straight into the library, with
  no scratch file and no rename.
- A failed derivative answers the request with an HTTP error, even though the
  master and thumbnail stay published.
- `pageHandler` leaves an unknown sort value unsorted, although its comment
  says timestamp order is the default.

## Model

| member | source | states |
|---|---|---|
| `Strings.Lower` | app/app.go:924 | `strings.ToLower` keeps the length, turns each ASCII capital into its lower-case letter (its code plus `'a' - 'A'`), leaves no capital behind and changes no other character |
| `Strings.TrimSuffix` | app/app.go:929 | `strings.TrimSuffix` removes the suffix exactly when the string ends with it, and then putting the suffix back rebuilds the string; otherwise the string is unchanged |
| `Strings.LexLeq` | app/app.go:646 | Go's byte-wise string order, under which a prefix is never greater than the string it begins |
| `GoPath.Ext` | app/app.go:550 | the extension is a suffix of the path: either empty, when the final element has no dot, or it starts at a dot and contains no other dot and no separator |
| `GoPath.ExtensionUnique` | app/app.go:550 | at most one string meets that description of an extension |
| `GoPath.ExtIsTheExtension` | app/app.go:550 | any string meeting that description is what `filepath.Ext` returns, so the backwards scan and the declarative reading agree |
| `GoPath.FinalElement` | app/app.go:549 | the final element is the longest separator-free suffix; a separator comes right before it unless it is the whole path |
| `GoPath.TrimTrailingSlashes` | app/app.go:549 | `Base`'s first step keeps a prefix that does not end in a separator and drops only separators |
| `GoPath.Base` | app/app.go:549 | `filepath.Base` never returns the empty string, and for a non-empty path its result is no longer than the path |
| `GoPath.BaseShape` | app/app.go:549 | `Base` is never empty and is `"."` for the empty path; it contains a separator exactly when the path is all separators, and then it is `"/"` |
| `GoPath.BaseOfPlainPath` | app/app.go:549 | for a non-empty path with no trailing separator, `Base` is the final element |
| `GoPath.ExtOfFinalElement` | app/app.go:549-550 | a path and its final element have the same extension |
| `GoPath.ExtOfDottedSuffix` | app/app.go:302-303 | appending a dotted suffix that contains no separator and no further dot makes that suffix the extension |
| `GoPath.PathWithoutExtension` | app/app.go:555-557 | the stem is no longer than the path, and whatever was cut off begins at a dot |
| `GoPath.PathStemRoundTrip` | app/app.go:553-557 | `pathWithoutExtension(p) + Ext(p) == p` |
| `GoPath.PathWithoutExtensionKeepsDirectories` | app/app.go:553-557 | every separator survives, so no dot in a directory name is stripped; a path whose final element has no dot comes back unchanged |
| `GoPath.BasenameWithoutExtension` | app/app.go:548-551 | the stem is no longer than `Base(path)`, and whatever was cut off `Base(path)` begins at a dot |
| `GoPath.BasenameStemRoundTrip` | app/app.go:546-551 | the basename stem plus the extension of `Base(p)` rebuilds `Base(p)`; the basename stem equals `pathWithoutExtension(Base(p))` |
| `GoPath.BasenameSeparatorFree` | app/app.go:546-551 | the basename stem contains a separator exactly when the path is non-empty and all separators |
| `GoPath.BasenameIsPathStemWithoutDirectory` | app/app.go:546-557 | for a path with no trailing separator, `pathWithoutExtension(p)` is the directory part of `p` followed by `basenameWithoutExtension(p)` |
| `GoPath.DoubleExtensionExample` | app/app.go:548-551 | only the last extension is removed: `a.tar.gz` becomes `a.tar` |
| `GoPath.DirectoryDotIgnored` | app/app.go:555-557 | a dot in a directory (as in `clips.v2/intro`) is never an extension: a path whose final element has no dot has no extension and keeps its whole text as its stem |
| `Sidecars.TrimOwnExtension` | app/app.go:927-931 | `strings.TrimSuffix(p, filepath.Ext(p))` is `pathWithoutExtension(p)` |
| `Sidecars.ThumbnailPath` | app/app.go:302-303 | a video whose extension is not `.jpg` never has itself as its thumbnail |
| `Sidecars.DerivativePath` | app/app.go:369-373 | a derivative path never equals its master's path: where the master's extension begins, the derivative has `#` |
| `Sidecars.ThumbnailSharesStem` | app/app.go:302-303 | the thumbnail has extension `.jpg` and the same stem as its video |
| `Sidecars.DerivativeShape` | app/app.go:369-373 | a derivative has extension `.mp4` and stem `pathWithoutExtension(master) + "#" + suffix`, whatever the suffix |
| `Sidecars.DerivativesDistinct` | app/app.go:349-381 | different suffixes give different derivative paths of the same master |
| `Collisions.FileExistsAtLocation` | app/app.go:487-501 | a join error or an unexpected stat error comes back as `err`; a stat success gives `true`; not-exist gives a clean `false`; a true answer never carries an error |
| `Collisions.FileExistsAtAnyLocation` | app/app.go:504-515 | a hit never carries an error, and the empty location list is a clean miss |
| `Collisions.SingleLocationScan` | app/app.go:504-515 | scanning the list holding one location answers exactly what probing that location does |
| `Collisions.AnyLocationScan` | app/app.go:503-515 | locations are scanned in order: a hit means some location has the file and all earlier ones cleanly lack it; an error is the first failing location before any hit; a clean `false` means every location cleanly lacks the file, including the empty list |
| `Collisions.SettleName` | app/app.go:527-542 | the loop ends on a name its final probe does not report present, with a nil error; that name is the first one tried or a retry name built from one of the tokens; a name that is not a clean hit (absent everywhere, or a failing probe) is kept: the loop ends on it with a nil error, because the loop's `err` shadows the result; each retry is a recursive call, so this holds for the first name and for every retry; with no name returned, every name tried was present |
| `Collisions.RetryName` | app/app.go:536 | a retry name is strictly longer than the first name `basenameWithoutExtension(candidate) + ".mp4"`, so a retry never repeats it |
| `Collisions.NewVideoFileName` | app/app.go:517-543 | the name ends in `.mp4` and comes with a nil error; with a candidate it is `stem + ".mp4"` or `stem + "_" + token + ".mp4"` for some token; without one it is the first token plus `.mp4` or a retry name built from a later token; a first name the probe does not report present is returned unchanged (a token is added only when the candidate is empty or exists); no name comes back only when the tokens ran out and every name tried was present |
| `Collisions.SettledNameIsMp4` | app/app.go:523-536 | if the first name ends in `.mp4`, every name the loop can settle on does too |
| `Collisions.SettledNameUsesTokens` | app/app.go:525-536 | without a candidate, the settled name is the first token plus `.mp4` or a retry name built from a later token; when none settles, every retry name of a later token was present |
| `Collisions.SwallowedProbeError` | app/app.go:527-542 | when the first probe fails, the first name comes back with a nil error: the candidate's stem plus `.mp4`, or `tokens[0] + ".mp4"` without a candidate |
| `Collisions.CleanExitMeansAbsentEverywhere` | app/app.go:527-538 | when the loop ends on a clean probe, every checked location cleanly lacks the name |
| `Collisions.EmptyCandidateRetryName` | app/app.go:536 | with an empty candidate the retry name is `"_" + token + ".mp4"` |
| `Requests.SelectPlayback` | app/app.go:921-944 | a lower-cased quality in {720p, 480p, 360p, 240p} selects that derivative, and on-the-fly encoding happens exactly when the derivative file is missing; the empty quality and any other value stream the master and never encode on the fly |
| `Requests.NormalizeQuality` | app/app.go:876-882 | the result is empty or a known quality; it is the lower-cased input exactly when that input is empty or known |
| `Requests.NormalizeQualityIdempotent` | app/app.go:876-882 | normalising a normalised quality changes nothing |
| `Requests.PageAndStreamAgree` | app/app.go:924-944 | the stream leaves the master exactly when the page's normalised quality is non-empty, and then asks for the derivative of that quality |
| `Requests.SortCriterion` | app/app.go:865-874 | `views` sorts by views; `""` and `timestamp` sort by timestamp; every other value leaves the playlist unsorted |
| `Requests.VideoHandler` | app/app.go:902-959 | an unknown id gets no response; for a known one the Content-Type header is set to `video/mp4` and `Migrate` and then `IncViews` are always called, whatever the quality |
| `Requests.ThumbHandler` | app/app.go:1031-1051 | an unknown id gets no response; a video without a thumbnail type gets the default icon as `image/jpeg`; otherwise its own bytes and type; the type is never empty and caching lasts 90 days |
| `Upload.PreserveUploadFilenameIsEnabled` | app/app.go:477-480 | true when enabled globally or for the target collection; a target that is not configured falls back to the global switch |
| `Upload.PreserveSwitchIgnored` | app/app.go:257-261 | the upload never consults the switch: two libraries with the same collections answer an upload alike, whatever their per-collection switches say |
| `Upload.PublishDerivatives` | app/app.go:347-381 | the loop only adds derivatives of this master; it succeeds exactly when every scale and rename succeeds, and then every derivative is published; a failure names a configured profile, `ScaleFailed` only for one whose scale failed and `ScaledRenameFailed` only for one whose scale succeeded and rename failed |
| `Upload.FirstDerivativeFailure` | app/app.go:347-381 | the loop stops at the first failing profile: the request fails on that profile's own step, and exactly the derivatives of the profiles before it are in the library |
| `Upload.Publish` | app/app.go:302-381 | the library only gains the thumbnail, the master and their derivatives; the request succeeds exactly when every step does, and then it gains all of them |
| `Upload.FailureBeforePublishLeavesLibrary` | app/app.go:306-338 | when staging, the scratch file, the transcoder, the thumbnailer or the thumbnail rename fails, the request fails and the library is unchanged |
| `Upload.MasterImpliesThumbnail` | app/app.go:329-345 | a master newly in the library always has its thumbnail there too |
| `Upload.DerivativeFailureKeepsMaster` | app/app.go:332-381 | once both renames have succeeded, the master and the thumbnail stay in the library whatever the resize loop does, so a failing scaler or derivative rename removes neither |
| `Upload.VideoRenameFailureLeavesThumbnail` | app/app.go:332-345 | when the master's rename fails after the thumbnail's succeeded, the request fails and the thumbnail alone is left in the library |
| `Upload.ProfileOrderIrrelevant` | app/app.go:349 | two successful runs whose profile lists hold the same profiles publish the same files, whatever the map-iteration order |
| `Upload.PublishedDerivativeIsPlayedBack` | app/app.go:369-373 | after a successful upload, playback of a configured quality finds the published derivative and does not encode on the fly |
| `Upload.UploadHandler` | app/app.go:237-272 | an unknown target or a missing form file fails with the library unchanged; on success the master is an `.mp4` name that the probe did not report present, published with its thumbnail and every derivative |
| `Upload.UploadNameFromFileName` | app/app.go:257-265 | the master's name starts from the uploaded file's own name: a free `basenameWithoutExtension(file) + ".mp4"` is kept, otherwise the name is that stem plus `_` plus a token; without a file name the first token names the first try |
| `RemoteImport.SizeGate` | app/app.go:686-704 | the gate passes exactly when `contentLength != -1 && contentLength <= MaxUploadSize`; -1 is reported as an unknown size and a larger value as too big |
| `RemoteImport.SmallestKey` | app/app.go:642-647 | the chosen key is one of the keys and is lexicographically no greater than any of them |
| `RemoteImport.SmallestKeyOrderIndependent` | app/app.go:642-647 | the chosen key does not depend on the order in which the keys were listed |
| `RemoteImport.ImportTarget` | app/app.go:640-647 | with no collections there is no target (Go panics on `keys[0]`); otherwise the target is the configured key that is smallest in byte order |
| `RemoteImport.ImportMaster` | app/app.go:726-729 | the import's master is `<token>.mp4` joined to the chosen collection's configured `Path`, whereas an upload joins the collection key itself (app/app.go:265); the function carries no contract, since `join` is a parameter |
| `RemoteImport.ImportThumbnailIsUploadThumbnail` | app/app.go:726-731 | the thumbnail the import names with `strings.TrimSuffix(vf, filepath.Ext(vf)) + ".jpg"` is the thumbnail an upload gives the same master |
| `RemoteImport.ScaleDerivatives` | app/app.go:774-807 | the loop only adds derivatives of this master; it succeeds exactly when every scale succeeds, and then every derivative is published; a failure names a configured profile whose scale failed |
| `RemoteImport.FirstScaleFailure` | app/app.go:774-807 | the loop stops at the first profile whose scale fails, and exactly the derivatives of the profiles before it are in the library |
| `RemoteImport.ImportHandler` | app/app.go:619-813 | an empty URL or no collections fails with the library unchanged; any change to the library means the declared size passed the gate |
| `RemoteImport.ImportSizeGate` | app/app.go:679-708 | once the size check is reached, the import fails on size exactly when the length is -1 or over the limit, and then nothing is published |
| `RemoteImport.ImportPublishOrder` | app/app.go:726-772 | an imported master is never in the library without its thumbnail; on success the library gains exactly the thumbnail, the master and every derivative |

## Left out

- `NewApp`, `Run`, `render`, templates, router, CORS, `indexHandler` and `rssHandler`: wiring and page rendering with no decision logic of their own. The same goes for the GET and other-method branches of the upload and import handlers.
- On-the-fly streaming in `videoHandler` (app/app.go:960-1024) is left out: it spawns ffmpeg, wires pipes and runs a goroutine. The model stops at the decision to encode on the fly. Read as written, that branch cannot answer: `io.Copy(os.Stdout, stderr)` (app/app.go:979) reads ffmpeg's stderr pipe before `cmd.Start()` (app/app.go:985). The write end of that pipe stays open in the server until `Start`, so the read never ends. So a request for a missing derivative gets its headers set but no body.
- Several external effects become success/failure inputs or oracles: `utils.RunCmd`, `utils.Download`, `http.Head`, `ioutil.TempFile`, `os.Create`, `os.Rename`, `os.Stat` and `utils.FileExists`.
- `securejoin.SecureJoin` is an oracle field of `FileSystem`. `filepath.Join` is the `join` parameter. The `path.Join` of route prefix and id happens before `VideoHandler`/`ThumbHandler`, which take the joined id.
- `media.Library`, the view `Store` and the fsnotify watcher are not part of this model. For the store, only the order of the `Migrate` and `IncViews` calls is kept; their errors are only logged.
- `PreserveUploadFilenameIsEnabled`: a target missing from `Library.Paths` is read as Go's zero value, false. `Run` adds every collection as a `*media.Path` (app/app.go:153-158), so in Go a missing target with the global switch off dereferences nil and the request panics. The model answers false there instead.
- Playlist sorting (`media.By`) is not shown, so only the choice of criterion is modelled.
- Scratch files are left out: the staged upload, the temporary transcode, and their removal by `defer os.Remove`. So is the import's transcode temp file, which is left behind on failure. The state is the library only.
- `RemoteImport.ScaleDerivatives`: a failed scale is modelled as leaving nothing behind. ffmpeg may leave a partial file in the library, because import writes derivatives there directly.
- Requests are modelled one at a time. Go serves them concurrently, so between the `newVideoFileName` probe (app/app.go:527-529) and the `os.Rename` into the library (app/app.go:340) another request can create the same name, and `os.Rename` then silently replaces that file. No contract here rules this out.
- `Upload.UploadHandler`: the probe oracle `fs` is independent of the `published` set, so no contract says an upload never overwrites a file already in the library. The model promises only that the chosen name was not reported present when it was probed.
- `Collisions.NewVideoFileName`: the token stream bounds the retry loop, and `None` stands for a loop still running when the tokens run out. Go's loop has no bound.
- `Strings.Lower` lower-cases ASCII letters only. Go's `strings.ToLower` also maps non-ASCII letters.
- `RemoteImport.SizeGate` uses unbounded integers for the `int64` Content-Length and maximum. The comparisons involved cannot overflow. `utils.SafeParseInt64` is not part of this model: the HEAD result arrives already parsed, with -1 for a missing or unparsable header. Any other negative value passes the gate, as in the code.
- HTTP status codes and error texts are not modelled. Each failure is a named reason; an empty import URL is the one answered with 400 rather than 500. The exception is `NoCollections`: with no collection configured, Go panics at `keys[0]` (app/app.go:647) and sends no status at all.
- `ParseMultipartForm` errors, which the code ignores, are not modelled. Neither are form-value extraction beyond the target key and the uploaded file name, or the page handler's view-count lookups.

=== FILE: collisions.dfy ===
/** Collision-free naming of uploads: the existence probes
    `fileExistsAtLocation` / `fileExistsAtAnyLocation` and the retry loop of
    `newVideoFileName` (app/app.go). The filesystem is an oracle, and so is
    shortuuid.New(), modelled as the stream of tokens it hands out. */
module Collisions {
  import opened Wrappers
  import opened Strings
  import opened GoPath
  import opened Sequences

  /** What os.Stat reports for an absolute path. */
  datatype StatOutcome = Found | NotFound | StatFailed(reason: string)

  /** The filesystem as the probes see it: securejoin.SecureJoin (which may
      reject a name) and os.Stat. */
  datatype FileSystem = FileSystem(
    secureJoin: (string, string) -> Result<string>,
    stat: string -> StatOutcome)

  /** Go's `(exists bool, err error)` pair. */
  datatype Probe = Probe(found: bool, err: Option<string>)

  /** The probe answer of a location that cleanly lacks the file. */
  const Missing := Probe(false, None)

  /** fileExistsAtLocation: join, then stat; a join error or an unexpected
      stat error comes back as `err`, stat success as `true`, not-exist as
      `false`. */
  function FileExistsAtLocation(fs: FileSystem, filename: string, location: string): (r: Probe)
    ensures r.found ==> r.err == None
    ensures r.found <==>
      fs.secureJoin(location, filename).Ok? && fs.stat(fs.secureJoin(location, filename).value) == Found
    ensures r == Missing <==>
      fs.secureJoin(location, filename).Ok? && fs.stat(fs.secureJoin(location, filename).value) == NotFound
    ensures r.err.Some? <==>
      fs.secureJoin(location, filename).Err? || fs.stat(fs.secureJoin(location, filename).value).StatFailed?
  {
    match fs.secureJoin(location, filename)
    case Err(e) => Probe(false, Some(e))
    case Ok(absolutePath) =>
      match fs.stat(absolutePath)
      case Found => Probe(true, None)
      case NotFound => Missing
      case StatFailed(e) => Probe(false, Some(e))
  }

  /** fileExistsAtAnyLocation: the locations are probed in order; the first
      error or the first hit decides, and only a full clean miss answers
      `(false, nil)`. */
  function FileExistsAtAnyLocation(fs: FileSystem, filename: string, locations: seq<string>): (r: Probe)
    ensures r.found ==> r.err == None
    ensures |locations| == 0 ==> r == Missing
    decreases |locations|
  {
    if |locations| == 0 then Missing
    else
      var p := FileExistsAtLocation(fs, filename, locations[0]);
      if p.err.Some? then Probe(false, p.err)
      else if p.found then Probe(true, None)
      else FileExistsAtAnyLocation(fs, filename, locations[1..])
  }

  /** Scanning a single location answers exactly what probing it does. */
  lemma SingleLocationScan(fs: FileSystem, filename: string, location: string)
    ensures FileExistsAtAnyLocation(fs, filename, [location]) == FileExistsAtLocation(fs, filename, location)
  {
    assert [location][1..] == [];
  }

  /** Every location before index `i` cleanly lacks the file. */
  predicate MissingBefore(fs: FileSystem, filename: string, locations: seq<string>, i: int)
    requires 0 <= i <= |locations|
  {
    forall j :: 0 <= j < i ==> FileExistsAtLocation(fs, filename, locations[j]) == Missing
  }

  /** The three answers of the scan, each with the locations that explain
      it: a hit at the first location that has the file with all earlier ones
      clean; the error of the first failing location reached before any hit;
      a clean miss exactly when every location cleanly lacks the file. */
  lemma {:induction false} AnyLocationScan(fs: FileSystem, filename: string, locations: seq<string>)
    ensures var r := FileExistsAtAnyLocation(fs, filename, locations);
      && (r.found ==> r.err == None)
      && (r.found <==> exists i :: 0 <= i < |locations| && MissingBefore(fs, filename, locations, i)
                                   && FileExistsAtLocation(fs, filename, locations[i]).found)
      && (r.err.Some? <==> exists i :: 0 <= i < |locations| && MissingBefore(fs, filename, locations, i)
                                   && FileExistsAtLocation(fs, filename, locations[i]).err == r.err
                                   && r.err.Some?)
      && (r == Missing <==> MissingBefore(fs, filename, locations, |locations|))
    decreases |locations|
  {
    if |locations| > 0 {
      var tail := locations[1..];
      AnyLocationScan(fs, filename, tail);
      var p := FileExistsAtLocation(fs, filename, locations[0]);
      var r := FileExistsAtAnyLocation(fs, filename, locations);
      assert MissingBefore(fs, filename, locations, 0);
      if p == Missing {
        forall i | 0 <= i < |tail|
          ensures MissingBefore(fs, filename, locations, i + 1) <==> MissingBefore(fs, filename, tail, i)
        {
          assert forall j :: 0 <= j < i ==> tail[j] == locations[j + 1];
          if MissingBefore(fs, filename, tail, i) {
            forall j | 0 <= j < i + 1
              ensures FileExistsAtLocation(fs, filename, locations[j]) == Missing
            {
              if j > 0 { assert locations[j] == tail[j - 1]; }
            }
          }
        }
        if r.found {
          var i :| 0 <= i < |tail| && MissingBefore(fs, filename, tail, i)
                   && FileExistsAtLocation(fs, filename, tail[i]).found;
          assert locations[i + 1] == tail[i];
        }
        if r.err.Some? {
          var i :| 0 <= i < |tail| && MissingBefore(fs, filename, tail, i)
                   && FileExistsAtLocation(fs, filename, tail[i]).err == r.err;
          assert locations[i + 1] == tail[i];
        }
        if MissingBefore(fs, filename, locations, |locations|) {
          assert MissingBefore(fs, filename, tail, |tail|);
        }
        if MissingBefore(fs, filename, tail, |tail|) {
          assert MissingBefore(fs, filename, locations, |tail| + 1);
        }
      } else {
        assert !MissingBefore(fs, filename, locations, |locations|);
        forall i | 0 < i <= |locations|
          ensures !MissingBefore(fs, filename, locations, i)
        {
        }
      }
    }
  }

  /** Go's `(newFileName string, err error)` result of newVideoFileName. */
  datatype Naming = Naming(name: string, err: Option<string>)

  /** The name tried after a collision:
      `basenameWithoutExtension(candidate) + "_" + token + ".mp4"`. */
  function RetryName(candidate: string, token: string): (name: string)
    ensures |name| > |BasenameWithoutExtension(candidate)| + |".mp4"|
  {
    BasenameWithoutExtension(candidate) + "_" + token + ".mp4"
  }

  /** The loop of newVideoFileName from the probe of `name` on. It keeps
      going only while the probe reports a clean hit (`exists == true &&
      err == nil`). The loop's `err` shadows the named result, so however
      the loop ends the function returns `name` with a nil error; in
      particular a name that is not a clean hit (absent everywhere, or a
      failing probe) is kept as it is. Every retry is probed by a recursive
      call, so that holds for the first name and for each retry alike. `None` stands for a loop still running
      when the token stream is used up. */
  function SettleName(fs: FileSystem, candidate: string, locations: seq<string>,
                      name: string, tokens: seq<string>): (r: Option<Naming>)
    ensures r.Some? ==> r.value.err == None
    ensures r.Some? ==> !FileExistsAtAnyLocation(fs, r.value.name, locations).found
    ensures r.Some? ==>
      (r.value.name == name
       || exists i :: 0 <= i < |tokens| && r.value.name == RetryName(candidate, tokens[i]))
    ensures !FileExistsAtAnyLocation(fs, name, locations).found ==> r == Some(Naming(name, None))
    ensures r.None? ==> FileExistsAtAnyLocation(fs, name, locations).found
    ensures r.None? ==> forall i :: 0 <= i < |tokens| ==>
      FileExistsAtAnyLocation(fs, RetryName(candidate, tokens[i]), locations).found
    decreases |tokens|
  {
    var probe := FileExistsAtAnyLocation(fs, name, locations);
    if !(probe.found && probe.err == None) then
      AnyLocationScan(fs, name, locations);
      Some(Naming(name, None))
    else if |tokens| == 0 then None
    else
      var r := SettleName(fs, candidate, locations, RetryName(candidate, tokens[0]), tokens[1..]);
      if r.Some? && r.value.name != RetryName(candidate, tokens[0]) then
        RetryFromLaterToken(candidate, tokens, r.value.name);
        r
      else if r.None? then
        HoldsForAll(tokens, t => FileExistsAtAnyLocation(fs, RetryName(candidate, t), locations).found);
        r
      else r
  }

  /** A retry name built from a token of `tokens[1..]` is built from a token
      of `tokens` at an index of at least 1. */
  lemma RetryFromLaterToken(candidate: string, tokens: seq<string>, name: string)
    requires |tokens| > 0
    requires exists i :: 0 <= i < |tokens[1..]| && name == RetryName(candidate, tokens[1..][i])
    ensures exists i :: 1 <= i < |tokens| && name == RetryName(candidate, tokens[i])
  {
    var i :| 0 <= i < |tokens[1..]| && name == RetryName(candidate, tokens[1..][i]);
    assert tokens[1..][i] == tokens[i + 1];
  }

  /** newVideoFileName: returns a name that the final probe did not report
      present, built from the candidate's stem or from shortuuid tokens,
      always ending in ".mp4", and never an error (the error return inside
      the loop cannot be reached, because the loop only runs while `err` is
      nil). No name comes back only when the token stream runs out, and then
      every name tried was reported present. */
  function NewVideoFileName(fs: FileSystem, candidate: string, locations: seq<string>,
                            tokens: seq<string>): (r: Option<Naming>)
    ensures r.Some? ==> r.value.err == None
    ensures r.Some? ==> EndsWith(r.value.name, ".mp4")
    ensures r.Some? ==> !FileExistsAtAnyLocation(fs, r.value.name, locations).found
    ensures r.Some? && candidate != "" ==>
      (r.value.name == BasenameWithoutExtension(candidate) + ".mp4"
       || exists i :: 0 <= i < |tokens| && r.value.name == RetryName(candidate, tokens[i]))
    ensures r.Some? && candidate == "" ==>
      |tokens| > 0 &&
      (r.value.name == tokens[0] + ".mp4"
       || exists i :: 1 <= i < |tokens| && r.value.name == RetryName(candidate, tokens[i]))
    ensures candidate != "" && !FileExistsAtAnyLocation(fs, BasenameWithoutExtension(candidate) + ".mp4", locations).found ==>
      r == Some(Naming(BasenameWithoutExtension(candidate) + ".mp4", None))
    ensures candidate == "" && |tokens| > 0 && !FileExistsAtAnyLocation(fs, tokens[0] + ".mp4", locations).found ==>
      r == Some(Naming(tokens[0] + ".mp4", None))
    ensures r.None? && candidate != "" ==>
      && FileExistsAtAnyLocation(fs, BasenameWithoutExtension(candidate) + ".mp4", locations).found
      && forall i :: 0 <= i < |tokens| ==> FileExistsAtAnyLocation(fs, RetryName(candidate, tokens[i]), locations).found
    ensures r.None? && candidate == "" ==>
      |tokens| == 0 ||
      (&& FileExistsAtAnyLocation(fs, tokens[0] + ".mp4", locations).found
       && forall i :: 1 <= i < |tokens| ==> FileExistsAtAnyLocation(fs, RetryName(candidate, tokens[i]), locations).found)
  {
    if candidate != "" then
      var r := SettleName(fs, candidate, locations, BasenameWithoutExtension(candidate) + ".mp4", tokens);
      SettledNameIsMp4(fs, candidate, locations, BasenameWithoutExtension(candidate) + ".mp4", tokens);
      r
    else if |tokens| == 0 then None
    else
      var r := SettleName(fs, candidate, locations, tokens[0] + ".mp4", tokens[1..]);
      SettledNameIsMp4(fs, candidate, locations, tokens[0] + ".mp4", tokens[1..]);
      SettledNameUsesTokens(fs, candidate, locations, tokens);
      r
  }

  /** Every name the loop can settle on ends in ".mp4" when the first one
      does. */
  lemma SettledNameIsMp4(fs: FileSystem, candidate: string, locations: seq<string>,
                         name: string, tokens: seq<string>)
    requires EndsWith(name, ".mp4")
    ensures var r := SettleName(fs, candidate, locations, name, tokens);
      r.Some? ==> EndsWith(r.value.name, ".mp4")
  {
    var r := SettleName(fs, candidate, locations, name, tokens);
    if r.Some? && r.value.name != name {
      var i :| 0 <= i < |tokens| && r.value.name == RetryName(candidate, tokens[i]);
    }
  }

  /** Without a candidate, the first token names the first try and only the
      later tokens feed the retries: the settled name is `tokens[0] + ".mp4"`
      or a retry built from a later token, and no name comes back only when
      every one of those names was present. */
  lemma SettledNameUsesTokens(fs: FileSystem, candidate: string, locations: seq<string>, tokens: seq<string>)
    requires |tokens| > 0
    ensures var r := SettleName(fs, candidate, locations, tokens[0] + ".mp4", tokens[1..]);
      && (r.Some? ==>
            (r.value.name == tokens[0] + ".mp4"
             || exists i :: 1 <= i < |tokens| && r.value.name == RetryName(candidate, tokens[i])))
      && (r.None? ==>
            forall i :: 1 <= i < |tokens| ==> FileExistsAtAnyLocation(fs, RetryName(candidate, tokens[i]), locations).found)
  {
    var r := SettleName(fs, candidate, locations, tokens[0] + ".mp4", tokens[1..]);
    if r.Some? && r.value.name != tokens[0] + ".mp4" {
      var i :| 0 <= i < |tokens[1..]| && r.value.name == RetryName(candidate, tokens[1..][i]);
      assert tokens[1..][i] == tokens[i + 1];
    }
    if r.None? {
      forall i | 1 <= i < |tokens|
        ensures FileExistsAtAnyLocation(fs, RetryName(candidate, tokens[i]), locations).found
      {
        assert tokens[1..][i - 1] == tokens[i];
      }
    }
  }

  /** The shadowed `err`: when the first probe fails, the loop stops at once
      and the first name comes back with a nil error, with or without a
      candidate. */
  lemma SwallowedProbeError(fs: FileSystem, candidate: string, locations: seq<string>, tokens: seq<string>)
    requires candidate != "" || |tokens| > 0
    ensures var first := if candidate != "" then BasenameWithoutExtension(candidate) + ".mp4" else tokens[0] + ".mp4";
      FileExistsAtAnyLocation(fs, first, locations).err.Some? ==>
        NewVideoFileName(fs, candidate, locations, tokens) == Some(Naming(first, None))
  {
  }

  /** When the loop ends on a clean probe, the chosen name is absent from
      every location that was checked. */
  lemma {:induction false} CleanExitMeansAbsentEverywhere(
    fs: FileSystem, candidate: string, locations: seq<string>, tokens: seq<string>)
    requires NewVideoFileName(fs, candidate, locations, tokens).Some?
    requires FileExistsAtAnyLocation(fs, NewVideoFileName(fs, candidate, locations, tokens).value.name, locations).err == None
    ensures forall i :: 0 <= i < |locations| ==>
      FileExistsAtLocation(fs, NewVideoFileName(fs, candidate, locations, tokens).value.name, locations[i]) == Missing
  {
    var name := NewVideoFileName(fs, candidate, locations, tokens).value.name;
    AnyLocationScan(fs, name, locations);
  }

  /** Without a candidate the retries are `"_" + token + ".mp4"`, since
      basenameWithoutExtension("") is empty. */
  lemma EmptyCandidateRetryName(token: string)
    ensures RetryName("", token) == "_" + token + ".mp4"
  {
    assert Base("") == ".";
    assert Ext(".") == ".";
  }
}

=== FILE: gopath.dfy ===
/** Go's `path/filepath` helpers on Unix (separator '/') and the two stem
    helpers of app/app.go built on them: `pathWithoutExtension` and
    `basenameWithoutExtension`. */
module GoPath {
  import opened Strings

  /** Every character of `p` is a separator. */
  predicate AllSlashes(p: string) {
    forall i :: 0 <= i < |p| ==> p[i] == '/'
  }

  /** The longest suffix of `q` holding no separator: the final element of a
      path without trailing slashes. */
  function FinalElement(q: string): (f: string)
    ensures EndsWith(q, f) && '/' !in f
    ensures |f| < |q| ==> q[|q| - |f| - 1] == '/'
    decreases |q|
  {
    if |q| == 0 || q[|q| - 1] == '/' then []
    else FinalElement(q[..|q| - 1]) + [q[|q| - 1]]
  }

  /** `e` is an extension of `p` in the sense of filepath.Ext: a suffix of
      `p` that is either empty, when the final element has no dot, or starts
      at a dot and holds neither a further dot nor a separator. */
  predicate IsExtension(p: string, e: string) {
    && EndsWith(p, e)
    && (e != [] ==> e[0] == '.' && '.' !in e[1..] && '/' !in e)
    && (e == [] ==> '.' !in FinalElement(p))
  }

  /** filepath.Ext: scans back from the end of `p`, stopping at the first
      separator; the extension starts at the last dot seen before it. */
  function Ext(p: string): (e: string)
    ensures IsExtension(p, e)
    decreases |p|
  {
    if |p| == 0 || p[|p| - 1] == '/' then []
    else if p[|p| - 1] == '.' then "."
    else
      var e' := Ext(p[..|p| - 1]);
      if e' == [] then []
      else
        assert (e' + [p[|p| - 1]])[1..] == e'[1..] + [p[|p| - 1]];
        e' + [p[|p| - 1]]
  }

  /** A non-empty dotted, separator-free suffix lies inside the final
      element, so that element holds a dot. */
  lemma DottedSuffixInFinalElement(p: string, e: string)
    requires EndsWith(p, e) && e != [] && e[0] == '.' && '/' !in e
    ensures '.' in FinalElement(p)
  {
    var f := FinalElement(p);
    assert f[|f| - |e|] == p[|p| - |e|] == '.';
  }

  /** At most one string is an extension of `p`. */
  lemma {:induction false} ExtensionUnique(p: string, e1: string, e2: string)
    requires IsExtension(p, e1) && IsExtension(p, e2)
    ensures e1 == e2
  {
    if e1 != [] && e2 == [] {
      DottedSuffixInFinalElement(p, e1);
    } else if e1 == [] && e2 != [] {
      DottedSuffixInFinalElement(p, e2);
    } else if e1 != [] && e2 != [] {
      assert |e1| == |e2|;
    }
  }

  /** Ext is the only extension of `p`: the declarative reading of
      filepath.Ext and its backwards scan agree on every path. */
  lemma ExtIsTheExtension(p: string, e: string)
    requires IsExtension(p, e)
    ensures Ext(p) == e
  {
    ExtensionUnique(p, Ext(p), e);
  }

  /** Appending a dotted, separator-free suffix makes it the extension. */
  lemma ExtOfDottedSuffix(x: string, y: string)
    requires y != [] && y[0] == '.' && '.' !in y[1..] && '/' !in y
    ensures Ext(x + y) == y
  {
    assert (x + y)[|x + y| - |y|..] == y;
    ExtIsTheExtension(x + y, y);
  }

  /** Drops trailing separators. */
  function TrimTrailingSlashes(p: string): (q: string)
    ensures |q| <= |p| && q == p[..|q|]
    ensures q == [] || q[|q| - 1] != '/'
    ensures forall k :: |q| <= k < |p| ==> p[k] == '/'
    decreases |p|
  {
    if |p| > 0 && p[|p| - 1] == '/' then TrimTrailingSlashes(p[..|p| - 1]) else p
  }

  /** filepath.Base: "." for the empty path, "/" for a path of separators
      only, otherwise the final element once trailing separators are gone. */
  function Base(p: string): (b: string)
    ensures b != []
    ensures p != [] ==> |b| <= |p|
  {
    if p == [] then "."
    else
      var q := TrimTrailingSlashes(p);
      if q == [] then "/" else FinalElement(q)
  }

  /** Base never returns the empty string, and its result holds a separator
      exactly when the path is made of separators only, where it is "/". */
  lemma BaseShape(p: string)
    ensures Base(p) != []
    ensures p == [] ==> Base(p) == "."
    ensures ('/' in Base(p)) <==> (p != [] && AllSlashes(p))
    ensures '/' in Base(p) ==> Base(p) == "/"
  {
    if p != [] {
      var q := TrimTrailingSlashes(p);
      if q != [] {
        assert p[|q| - 1] == q[|q| - 1];
        assert FinalElement(q) == FinalElement(q[..|q| - 1]) + [q[|q| - 1]];
      }
    }
  }

  /** On a path with no trailing separator, Base is the final element. */
  lemma BaseOfPlainPath(p: string)
    requires p != [] && p[|p| - 1] != '/'
    ensures Base(p) == FinalElement(p)
  {
  }

  /** The extension of a path is the extension of its final element. */
  lemma {:induction false} ExtOfFinalElement(q: string)
    ensures Ext(FinalElement(q)) == Ext(q)
    decreases |q|
  {
    if |q| > 0 && q[|q| - 1] != '/' {
      var q' := q[..|q| - 1];
      var f := FinalElement(q);
      assert f[..|f| - 1] == FinalElement(q') && f[|f| - 1] == q[|q| - 1];
      ExtOfFinalElement(q');
    }
  }

  /** pathWithoutExtension (app/app.go): the path with its extension cut. */
  function PathWithoutExtension(p: string): (stem: string)
    ensures |stem| <= |p|
    ensures |stem| < |p| ==> p[|stem|] == '.'
  {
    p[..|p| - |Ext(p)|]
  }

  /** Putting the extension back onto the stem rebuilds the path. */
  lemma PathStemRoundTrip(p: string)
    ensures PathWithoutExtension(p) + Ext(p) == p
  {
  }

  /** Only the final element can lose characters: every separator of `p`,
      and so every dot in a directory name, survives; and a path whose final
      element has no dot is returned unchanged. */
  lemma PathWithoutExtensionKeepsDirectories(p: string)
    ensures forall k :: 0 <= k < |p| && p[k] == '/' ==> k < |PathWithoutExtension(p)|
    ensures '.' !in FinalElement(p) ==> PathWithoutExtension(p) == p
  {
    var e := Ext(p);
    forall k | 0 <= k < |p| && p[k] == '/'
      ensures k < |PathWithoutExtension(p)|
    {
    }
    if '.' !in FinalElement(p) && e != [] {
      DottedSuffixInFinalElement(p, e);
    }
  }

  /** basenameWithoutExtension (app/app.go): Base, then its extension cut. */
  function BasenameWithoutExtension(path: string): (stem: string)
    ensures |stem| <= |Base(path)|
    ensures |stem| < |Base(path)| ==> Base(path)[|stem|] == '.'
  {
    var b := Base(path);
    b[..|b| - |Ext(b)|]
  }

  /** The basename stem is the final element's stem: putting the final
      element's extension back rebuilds Base(path). */
  lemma BasenameStemRoundTrip(path: string)
    ensures BasenameWithoutExtension(path) + Ext(Base(path)) == Base(path)
    ensures BasenameWithoutExtension(path) == PathWithoutExtension(Base(path))
  {
    var b := Base(path);
    assert BasenameWithoutExtension(path) == PathWithoutExtension(b);
    PathStemRoundTrip(b);
  }

  /** The stem holds a separator only for paths made of separators, where it
      is "/" itself; for every other path it is separator-free. */
  lemma BasenameSeparatorFree(path: string)
    ensures ('/' in BasenameWithoutExtension(path)) <==> (path != [] && AllSlashes(path))
  {
    BaseShape(path);
    var b := Base(path);
    if path != [] && AllSlashes(path) {
      assert Ext("/") == [];
    }
  }

  /** On a path without a trailing separator, the basename stem followed by
      the path's own extension is the final element. */
  lemma BasenameOfPlainPath(p: string)
    requires p != [] && p[|p| - 1] != '/'
    ensures BasenameWithoutExtension(p) + Ext(p) == FinalElement(p)
  {
    BaseOfPlainPath(p);
    ExtOfFinalElement(p);
    BasenameStemRoundTrip(p);
  }

  /** Pure sequence step: a path cut into directory and final element, each
      with the same extension removed. */
  lemma CancelSuffix(pathStem: string, dir: string, stem: string, e: string, p: string, f: string)
    requires pathStem + e == p && stem + e == f && p == dir + f
    ensures pathStem == dir + stem
  {
    assert pathStem + e == (dir + stem) + e;
    assert pathStem == (pathStem + e)[..|pathStem|];
    assert dir + stem == ((dir + stem) + e)[..|dir + stem|];
  }

  /** On a path without a trailing separator, the basename stem is the
      path stem with its directory part removed:
      pathWithoutExtension(p) == dir + basenameWithoutExtension(p). */
  lemma {:induction false} BasenameIsPathStemWithoutDirectory(p: string)
    requires p != [] && p[|p| - 1] != '/'
    ensures PathWithoutExtension(p) == p[..|p| - |Base(p)|] + BasenameWithoutExtension(p)
  {
    var b := Base(p);
    var e := Ext(p);
    var stem := BasenameWithoutExtension(p);
    var pathStem := PathWithoutExtension(p);
    assert EndsWith(p, b) && stem + e == b by {
      BaseOfPlainPath(p);
      BasenameOfPlainPath(p);
    }
    assert pathStem + e == p by { PathStemRoundTrip(p); }
    var dir := p[..|p| - |b|];
    SplitBeforeSuffix(p, b);
    CancelSuffix(pathStem, dir, stem, e, p, b);
  }

  /** A separator-free path is its own final element. */
  lemma {:induction false} FinalElementOfSlashFree(q: string)
    requires '/' !in q
    ensures FinalElement(q) == q
    decreases |q|
  {
    if q != [] {
      assert q[|q| - 1] in q;
      assert '/' !in q[..|q| - 1] by {
        forall c | c in q[..|q| - 1] ensures c in q { }
      }
      FinalElementOfSlashFree(q[..|q| - 1]);
      assert q == q[..|q| - 1] + [q[|q| - 1]];
    }
  }

  /** Only the last extension goes: "a.tar.gz" has the stem "a.tar". */
  lemma DoubleExtensionExample()
    ensures BasenameWithoutExtension("a.tar.gz") == "a.tar"
    ensures PathWithoutExtension("a.tar.gz") == "a.tar"
  {
    FinalElementOfSlashFree("a.tar.gz");
    ExtOfDottedSuffix("a.tar", ".gz");
    assert "a.tar" + ".gz" == "a.tar.gz";
  }

  /** The final element of `dir + "/" + name` is `name` when `name` holds no
      separator. */
  lemma {:induction false} FinalElementAfterSlash(dir: string, name: string)
    requires '/' !in name
    ensures FinalElement(dir + "/" + name) == name
    decreases |name|
  {
    var p := dir + "/" + name;
    if name == [] {
      assert p[|p| - 1] == '/';
    } else {
      var n' := name[..|name| - 1];
      assert name[|name| - 1] in name;
      assert '/' !in n' by {
        forall c | c in n' ensures c in name { }
      }
      assert p[..|p| - 1] == dir + "/" + n';
      FinalElementAfterSlash(dir, n');
      assert name == n' + [name[|name| - 1]];
    }
  }

  /** A dot in a directory name is never taken for an extension: a path
      such as "clips.v2/intro", whose final element has no dot, keeps its
      whole text as its stem. */
  lemma DirectoryDotIgnored(dir: string, name: string)
    requires '/' !in name && '.' !in name
    ensures PathWithoutExtension(dir + "/" + name) == dir + "/" + name
    ensures Ext(dir + "/" + name) == []
  {
    FinalElementAfterSlash(dir, name);
    PathWithoutExtensionKeepsDirectories(dir + "/" + name);
    ExtIsTheExtension(dir + "/" + name, []);
  }
}

=== FILE: library.dfy ===
/** The parts of the media library the handlers read: configured collections
    (`Library.Paths`) and catalogued videos (`Library.Videos`). */
module Library {

  type Bytes = seq<bv8>

  /** One configured collection: its root directory, URL prefix and whether
      uploads into it keep their original file names. */
  datatype Collection = Collection(path: string, prefix: string, preserveUploadFilename: bool)

  /** A catalogued video as the handlers use it: title, absolute path of the
      master, and the thumbnail bytes with their MIME type ("" when the video
      has no thumbnail of its own). */
  datatype Video = Video(id: string, title: string, path: string, thumb: Bytes, thumbType: string)
}

=== FILE: publishing.dfy ===
/** What upload and import share: the downscale profiles, the files a run
    leaves in the library, and the set of derivative names of a master. */
module Publishing {
  import opened Wrappers
  import opened Sidecars

  /** One entry of `Transcoder.Sizes`: the ffmpeg frame size and the file
      name suffix of the derivative it produces. */
  datatype Profile = Profile(size: string, suffix: string)

  /** The files present in the library once a request has ended, and how it
      ended: Pass for the success message, Fail for the HTTP error. */
  datatype Run<E> = Run(published: set<string>, status: Outcome<E>)

  /** The derivative names of `master` for a list of profiles, whatever
      order the list has. */
  function DerivativeSet(master: string, profiles: seq<Profile>): set<string> {
    set p | p in profiles :: DerivativePath(master, p.suffix)
  }

  /** The derivative names of the empty profile list and of a non-empty one,
      split at its head. */
  lemma DerivativeSetSplit(master: string, profiles: seq<Profile>)
    ensures profiles == [] ==> DerivativeSet(master, profiles) == {}
    ensures profiles != [] ==>
      DerivativeSet(master, profiles)
        == {DerivativePath(master, profiles[0].suffix)} + DerivativeSet(master, profiles[1..])
  {
    if profiles != [] {
      forall d | d in DerivativeSet(master, profiles)
        ensures d in {DerivativePath(master, profiles[0].suffix)} + DerivativeSet(master, profiles[1..])
      {
        var p :| p in profiles && d == DerivativePath(master, p.suffix);
        if p != profiles[0] {
          var i :| 0 <= i < |profiles| && profiles[i] == p;
          assert profiles[1..][i - 1] == p;
        }
      }
      forall d | d in DerivativeSet(master, profiles[1..])
        ensures d in DerivativeSet(master, profiles)
      {
        var p :| p in profiles[1..] && d == DerivativePath(master, p.suffix);
        var i :| 0 <= i < |profiles[1..]| && profiles[1..][i] == p;
        assert profiles[i + 1] == p;
      }
    }
  }
}

=== FILE: remote_import.dfy ===
/** The POST branch of `importHandler` (app/app.go) as a step machine: the
    target collection is the smallest configured key, the declared
    Content-Length gates the download, and the published files are tracked
    as in an upload. */
module RemoteImport {
  import opened Wrappers
  import opened Strings
  import opened GoPath
  import opened Sidecars
  import opened Library
  import opened Publishing
  import opened Sequences

  /** Why an import request stopped. */
  datatype ImportFailure =
    | NoUrl
    | NoCollections
    | ImporterFailed
    | VideoInfoFailed
    | DownloadTempFailed
    | HeadFailed
    | SizeUnknown
    | SizeExceeded
    | DownloadFailed
    | TranscodeTempFailed
    | ThumbnailDownloadFailed
    | TranscodeFailed
    | ThumbnailRenameFailed
    | VideoRenameFailed
    | ScaleFailed(profile: Profile)

  /** The size gate: Content-Length parsed with -1 standing for "missing or
      not a number"; an unknown size and a size above the limit both stop
      the import before anything is downloaded. */
  function SizeGate(contentLength: int, maxUploadSize: int): (r: Outcome<ImportFailure>)
    ensures r == Pass <==> contentLength != -1 && contentLength <= maxUploadSize
    ensures r == Fail(SizeUnknown) <==> contentLength == -1
    ensures r == Fail(SizeExceeded) <==> contentLength != -1 && contentLength > maxUploadSize
  {
    if contentLength == -1 then Fail(SizeUnknown)
    else if contentLength > maxUploadSize then Fail(SizeExceeded)
    else Pass
  }

  /** The first key once the keys are sorted with sort.Strings. */
  function SmallestKey(keys: seq<string>): (k: string)
    requires |keys| > 0
    ensures k in keys
    ensures forall j :: 0 <= j < |keys| ==> LexLeq(k, keys[j])
    decreases |keys|
  {
    if |keys| == 1 then LexLeqReflexive(keys[0]); keys[0]
    else
      var rest := SmallestKey(keys[1..]);
      LexLeqTotal(keys[0], rest);
      if LexLeq(keys[0], rest) then
        LexLeqReflexive(keys[0]);
        assert forall j :: 1 <= j < |keys| ==> LexLeq(keys[0], keys[j]) by {
          forall j | 1 <= j < |keys| ensures LexLeq(keys[0], keys[j]) {
            assert keys[1..][j - 1] == keys[j];
            LexLeqTransitive(keys[0], rest, keys[j]);
          }
        }
        keys[0]
      else
        assert forall j :: 1 <= j < |keys| ==> LexLeq(rest, keys[j]) by {
          forall j | 1 <= j < |keys| ensures LexLeq(rest, keys[j]) {
            assert keys[1..][j - 1] == keys[j];
          }
        }
        assert LexLeq(rest, keys[0]);
        rest
  }

  /** The chosen collection depends only on which keys there are, not on the
      order Go's map iteration produced them in. */
  lemma {:induction false} SmallestKeyOrderIndependent(keys: seq<string>, keys': seq<string>)
    requires |keys| > 0
    requires forall k :: k in keys <==> k in keys'
    ensures |keys'| > 0 && SmallestKey(keys) == SmallestKey(keys')
  {
    assert keys[0] in keys';
    var a := SmallestKey(keys);
    var b := SmallestKey(keys');
    var i :| 0 <= i < |keys'| && keys'[i] == a;
    var j :| 0 <= j < |keys| && keys[j] == b;
    LexLeqAntisymmetric(a, b);
  }

  /** The collection an import goes to: the smallest configured key, or
      none (Go panics indexing `keys[0]`) when no collection is configured.
      `keyOrder` enumerates the keys of `paths` in map-iteration order. */
  function ImportTarget(paths: map<string, Collection>, keyOrder: seq<string>): (target: Option<string>)
    requires forall k :: k in keyOrder <==> k in paths
    ensures target.None? <==> |paths| == 0
    ensures target.Some? ==>
      target.value in paths && forall k :: k in paths ==> LexLeq(target.value, k)
  {
    if |keyOrder| == 0 then
      assert forall k :: k !in paths;
      assert paths == map[];
      None
    else
      var k := SmallestKey(keyOrder);
      assert forall k' :: k' in paths ==> LexLeq(k, k') by {
        forall k' | k' in paths ensures LexLeq(k, k') {
          var i :| 0 <= i < |keyOrder| && keyOrder[i] == k';
        }
      }
      Some(k)
  }

  /** Whether each external step of an import succeeds, in order: creating
      the importer, resolving the video info, the download temp file, the
      HEAD request (`head` is the parsed Content-Length, -1 when absent),
      the download, the transcode temp file, the thumbnail download, the
      transcoder, the two renames, and per profile the scaler. `token` is
      the shortuuid naming the master. */
  datatype ImportEffects = ImportEffects(
    importerOk: bool,
    videoInfoOk: bool,
    downloadTempOk: bool,
    head: Option<int>,
    downloadOk: bool,
    transcodeTempOk: bool,
    token: string,
    thumbnailDownloadOk: bool,
    transcodeOk: bool,
    thumbnailRenameOk: bool,
    videoRenameOk: bool,
    profiles: seq<Profile>,
    scaleOk: Profile -> bool)

  /** The resize loop of an import: each profile is scaled from the
      published master straight into the library; the first failure ends the
      request. */
  function ScaleDerivatives(published: set<string>, master: string, profiles: seq<Profile>,
                            scaleOk: Profile -> bool): (r: Run<ImportFailure>)
    ensures published <= r.published <= published + DerivativeSet(master, profiles)
    ensures r.status.Pass? <==> forall i :: 0 <= i < |profiles| ==> scaleOk(profiles[i])
    ensures r.status.Pass? ==> r.published == published + DerivativeSet(master, profiles)
    ensures r.status.Fail? ==> r.status.error.ScaleFailed? && r.status.error.profile in profiles
    ensures r.status.Fail? ==> !scaleOk(r.status.error.profile)
    decreases |profiles|
  {
    DerivativeSetSplit(master, profiles);
    if |profiles| == 0 then Run(published, Pass)
    else if !scaleOk(profiles[0]) then Run(published, Fail(ScaleFailed(profiles[0])))
    else
      var r := ScaleDerivatives(published + {DerivativePath(master, profiles[0].suffix)},
                                master, profiles[1..], scaleOk);
      if r.status.Fail? then
        InTail(profiles, r.status.error.profile);
        FailsInTail(profiles, scaleOk);
        r
      else
        HoldsForAll(profiles, scaleOk);
        r
  }

  /** The import's loop stops at the first profile whose scale fails, and
      exactly the derivatives of the profiles before it are in the library. */
  lemma {:induction false} FirstScaleFailure(published: set<string>, master: string, profiles: seq<Profile>,
                                             scaleOk: Profile -> bool, k: nat)
    requires k < |profiles|
    requires forall j :: 0 <= j < k ==> scaleOk(profiles[j])
    requires !scaleOk(profiles[k])
    ensures ScaleDerivatives(published, master, profiles, scaleOk)
         == Run(published + DerivativeSet(master, profiles[..k]), Fail(ScaleFailed(profiles[k])))
    decreases k
  {
    if k == 0 {
      assert profiles[..0] == [];
      DerivativeSetSplit(master, []);
    } else {
      var d := DerivativePath(master, profiles[0].suffix);
      HoldsBeforeInTail(profiles, k, scaleOk);
      assert profiles[1..][k - 1] == profiles[k];
      FirstScaleFailure(published + {d}, master, profiles[1..], scaleOk, k - 1);
      assert DerivativeSet(master, profiles[..k]) == {d} + DerivativeSet(master, profiles[1..][..k - 1]) by {
        assert profiles[..k][1..] == profiles[1..][..k - 1];
        DerivativeSetSplit(master, profiles[..k]);
      }
    }
  }

  /** The master an import publishes: `<token>.mp4` joined to the chosen
      collection's directory (`join` stands for filepath.Join). */
  function ImportMaster(paths: map<string, Collection>, collection: string,
                        join: (string, string) -> string, token: string): string
    requires collection in paths
  {
    join(paths[collection].path, token + ".mp4")
  }

  /** The import names the master's thumbnail `strings.TrimSuffix(vf,
      filepath.Ext(vf)) + ".jpg"`; that is the thumbnail an upload would give
      the same master. */
  lemma ImportThumbnailIsUploadThumbnail(paths: map<string, Collection>, collection: string,
                                         join: (string, string) -> string, token: string)
    requires collection in paths
    ensures var master := ImportMaster(paths, collection, join, token);
      TrimSuffix(master, Ext(master)) + ".jpg" == ThumbnailPath(master)
  {
    TrimOwnExtension(ImportMaster(paths, collection, join, token));
  }

  /** The whole POST branch of importHandler. */
  function ImportHandler(url: string, paths: map<string, Collection>, keyOrder: seq<string>,
                         maxUploadSize: int, join: (string, string) -> string,
                         fx: ImportEffects, published: set<string>): (r: Run<ImportFailure>)
    requires forall k :: k in keyOrder <==> k in paths
    ensures url == "" ==> r == Run(published, Fail(NoUrl))
    ensures url != "" && |paths| == 0 ==> r == Run(published, Fail(NoCollections))
    ensures r.published != published ==>
      fx.head.Some? && SizeGate(fx.head.value, maxUploadSize) == Pass
  {
    if url == "" then Run(published, Fail(NoUrl))
    else
      match ImportTarget(paths, keyOrder)
      case None => Run(published, Fail(NoCollections))
      case Some(collection) =>
        if !fx.importerOk then Run(published, Fail(ImporterFailed))
        else if !fx.videoInfoOk then Run(published, Fail(VideoInfoFailed))
        else if !fx.downloadTempOk then Run(published, Fail(DownloadTempFailed))
        else if fx.head.None? then Run(published, Fail(HeadFailed))
        else
          match SizeGate(fx.head.value, maxUploadSize)
          case Fail(e) => Run(published, Fail(e))
          case Pass =>
            if !fx.downloadOk then Run(published, Fail(DownloadFailed))
            else if !fx.transcodeTempOk then Run(published, Fail(TranscodeTempFailed))
            else
              var master := ImportMaster(paths, collection, join, fx.token);
              var thumbnail := ThumbnailPath(master);
              if !fx.thumbnailDownloadOk then Run(published, Fail(ThumbnailDownloadFailed))
              else if !fx.transcodeOk then Run(published, Fail(TranscodeFailed))
              else if !fx.thumbnailRenameOk then Run(published, Fail(ThumbnailRenameFailed))
              else if !fx.videoRenameOk then Run(published + {thumbnail}, Fail(VideoRenameFailed))
              else ScaleDerivatives(published + {thumbnail, master}, master, fx.profiles, fx.scaleOk)
  }

  /** The steps before the size gate all succeed, so the gate decides. */
  predicate ReachesSizeGate(url: string, paths: map<string, Collection>, fx: ImportEffects) {
    url != "" && |paths| > 0 && fx.importerOk && fx.videoInfoOk && fx.downloadTempOk && fx.head.Some?
  }

  /** An import that reaches the size gate gets past it exactly when the
      declared length is known and within the limit; otherwise it fails
      with SizeUnknown or SizeExceeded and nothing is downloaded or
      published. */
  lemma {:induction false} ImportSizeGate(url: string, paths: map<string, Collection>, keyOrder: seq<string>,
                                          maxUploadSize: int, join: (string, string) -> string,
                                          fx: ImportEffects, published: set<string>)
    requires forall k :: k in keyOrder <==> k in paths
    requires ReachesSizeGate(url, paths, fx)
    ensures var r := ImportHandler(url, paths, keyOrder, maxUploadSize, join, fx, published);
      (r.status == Fail(SizeUnknown) || r.status == Fail(SizeExceeded))
      <==> !(fx.head.value != -1 && fx.head.value <= maxUploadSize)
    ensures var r := ImportHandler(url, paths, keyOrder, maxUploadSize, join, fx, published);
      r.status == Fail(SizeUnknown) || r.status == Fail(SizeExceeded) ==> r.published == published
  {
    var r := ImportHandler(url, paths, keyOrder, maxUploadSize, join, fx, published);
    var target := ImportTarget(paths, keyOrder);
    assert target.Some?;
    if fx.head.value != -1 && fx.head.value <= maxUploadSize {
      assert SizeGate(fx.head.value, maxUploadSize) == Pass;
      var master := ImportMaster(paths, target.value, join, fx.token);
      if fx.downloadOk && fx.transcodeTempOk && fx.thumbnailDownloadOk && fx.transcodeOk
         && fx.thumbnailRenameOk && fx.videoRenameOk {
        var d := ScaleDerivatives(published + {ThumbnailPath(master), master}, master, fx.profiles, fx.scaleOk);
        assert r == d;
        assert d.status.Pass? || d.status.error.ScaleFailed?;
      }
    }
  }

  /** As in an upload, the imported master is never in the library without
      its thumbnail, and on success the library gains exactly the
      thumbnail, the master and every derivative. */
  lemma {:induction false} ImportPublishOrder(url: string, paths: map<string, Collection>, keyOrder: seq<string>,
                                              maxUploadSize: int, join: (string, string) -> string,
                                              fx: ImportEffects, published: set<string>)
    requires forall k :: k in keyOrder <==> k in paths
    requires url != "" && |paths| > 0
    ensures var master := ImportMaster(paths, ImportTarget(paths, keyOrder).value, join, fx.token);
      var r := ImportHandler(url, paths, keyOrder, maxUploadSize, join, fx, published);
      && (master !in published && master in r.published ==> ThumbnailPath(master) in r.published)
      && (r.status.Pass? ==>
            r.published == published + {ThumbnailPath(master), master} + DerivativeSet(master, fx.profiles))
  {
    var master := ImportMaster(paths, ImportTarget(paths, keyOrder).value, join, fx.token);
    var r := ImportHandler(url, paths, keyOrder, maxUploadSize, join, fx, published);
    if master !in published && master in r.published {
      if fx.videoRenameOk {
        assert ThumbnailPath(master) in r.published;
      }
    }
  }
}

=== FILE: requests.dfy ===
/** Request-level decisions of the playback and browse handlers
    (app/app.go `videoHandler`, `pageHandler`, `thumbHandler`): which file a
    playback request streams, when it falls back to encoding on the fly,
    how the page normalises its query, and which thumbnail is served. */
module Requests {
  import opened Wrappers
  import opened Strings
  import opened Sidecars
  import opened Library

  /** The quality names playback and the page accept. */
  const Qualities: set<string> := {"720p", "480p", "360p", "240p"}

  /** The file a playback request streams, and whether it has to be encoded
      on the fly because that file does not exist. */
  datatype Playback = Playback(path: string, onTheFly: bool)

  /** The quality switch of videoHandler. A known quality (after
      lower-casing) selects the master's derivative for that quality and
      falls back to on-the-fly encoding exactly when that file is missing;
      the empty quality and every unknown one stream the master itself. */
  function SelectPlayback(master: string, quality: string, fileExists: string -> bool): (p: Playback)
    ensures Lower(quality) in Qualities ==>
      && p.path == DerivativePath(master, Lower(quality))
      && (p.onTheFly <==> !fileExists(p.path))
    ensures Lower(quality) !in Qualities ==> p == Playback(master, false)
    ensures p.onTheFly ==> p.path != master && !fileExists(p.path)
  {
    var q := Lower(quality);
    if q in Qualities then
      var videoPath := DerivativePath(master, q);
      Playback(videoPath, !fileExists(videoPath))
    else Playback(master, false)
  }

  /** The quality normalisation of pageHandler: the lower-cased quality when
      it is empty or known, otherwise the empty quality. */
  function NormalizeQuality(quality: string): (q: string)
    ensures q == "" || q in Qualities
    ensures q == Lower(quality) <==> (Lower(quality) == "" || Lower(quality) in Qualities)
  {
    var q := Lower(quality);
    if q == "" || q in Qualities then q else ""
  }

  /** Normalising twice is normalising once. */
  lemma {:induction false} NormalizeQualityIdempotent(quality: string)
    ensures NormalizeQuality(NormalizeQuality(quality)) == NormalizeQuality(quality)
  {
    LowerIdempotent(quality);
    assert Lower("") == "";
    forall q | q in Qualities ensures Lower(q) == q {
      assert Lower(q) == q;
    }
  }

  /** The page and the stream agree: the stream leaves the master exactly
      for the qualities the page keeps as non-empty, and then it asks for
      the derivative named after that normalised quality. */
  lemma {:induction false} PageAndStreamAgree(master: string, quality: string, fileExists: string -> bool)
    ensures (SelectPlayback(master, quality, fileExists).path == master) <==> NormalizeQuality(quality) == ""
    ensures NormalizeQuality(quality) != "" ==>
      SelectPlayback(master, quality, fileExists).path == DerivativePath(master, NormalizeQuality(quality))
  {
  }

  /** The playlist order pageHandler asks for. */
  datatype SortOrder = ByViews | ByTimestamp | Unsorted

  /** The sort switch of pageHandler: "views" sorts by views, "" and
      "timestamp" by timestamp; any other value is only logged and leaves
      the playlist as the library returned it, although the code comment
      claims a timestamp sort. */
  function SortCriterion(sort: string): (order: SortOrder)
    ensures order == Unsorted <==> Lower(sort) !in {"views", "", "timestamp"}
    ensures order == ByViews <==> Lower(sort) == "views"
  {
    match Lower(sort)
    case "views" => ByViews
    case "" => ByTimestamp
    case "timestamp" => ByTimestamp
    case _ => Unsorted
  }

  /** The view-store calls of one playback request, in order. */
  datatype StoreCall = Migrate(prefix: string, id: string) | IncViews(id: string)

  /** What videoHandler answers for a catalogued video. */
  datatype VideoResponse = VideoResponse(
    playback: Playback, storeCalls: seq<StoreCall>, contentType: string, disposition: string)

  /** videoHandler for a request already resolved to `id` (with the route's
      `prefix`, "" when the route has none). An unknown id gets no response
      at all. A known one always migrates and then counts one view, whatever
      the quality and whether those calls fail (failures are only logged),
      and is served as an MP4 attachment named after the title. */
  function VideoHandler(videos: map<string, Video>, prefix: string, id: string,
                        quality: string, fileExists: string -> bool): (r: Option<VideoResponse>)
    ensures r.Some? <==> id in videos
    ensures r.Some? ==>
      && r.value.storeCalls == [Migrate(prefix, id), IncViews(id)]
      && r.value.contentType == "video/mp4"
      && r.value.playback == SelectPlayback(videos[id].path, quality, fileExists)
  {
    if id !in videos then None
    else
      var m := videos[id];
      Some(VideoResponse(
        SelectPlayback(m.path, quality, fileExists),
        [Migrate(prefix, id), IncViews(id)],
        "video/mp4",
        "attachment; filename=\"" + m.title + ".mp4\""))
  }

  /** What thumbHandler answers for a catalogued video. */
  datatype ThumbResponse = ThumbResponse(contentType: string, body: Bytes, cacheControl: string)

  /** Thumbnails may be cached for 90 days. */
  const ThumbCacheControl := "public, max-age=7776000"

  /** thumbHandler: an unknown id gets no response; a video without a
      thumbnail type gets the built-in default icon as JPEG; otherwise its
      own bytes under its own type. The content type is never empty. */
  function ThumbHandler(videos: map<string, Video>, id: string, defaultIcon: Bytes): (r: Option<ThumbResponse>)
    ensures r.Some? <==> id in videos
    ensures r.Some? ==> r.value.contentType != "" && r.value.cacheControl == ThumbCacheControl
    ensures r.Some? && videos[id].thumbType == "" ==>
      r.value.contentType == "image/jpeg" && r.value.body == defaultIcon
    ensures r.Some? && videos[id].thumbType != "" ==>
      r.value.contentType == videos[id].thumbType && r.value.body == videos[id].thumb
  {
    if id !in videos then None
    else
      var m := videos[id];
      if m.thumbType == "" then Some(ThumbResponse("image/jpeg", defaultIcon, ThumbCacheControl))
      else Some(ThumbResponse(m.thumbType, m.thumb, ThumbCacheControl))
  }
}

=== FILE: sequences.dfy ===
/** Facts about a sequence and its tail `s[1..]`, stated for any element
    type and any property, so that the loops over tokens and over profiles
    can move between an index of the tail and an index of the whole. */
module Sequences {

  /** A property of the head and of every element of the tail holds of
      every element. */
  lemma HoldsForAll<T>(s: seq<T>, holds: T -> bool)
    requires |s| > 0 && holds(s[0])
    requires forall i :: 0 <= i < |s[1..]| ==> holds(s[1..][i])
    ensures forall i :: 0 <= i < |s| ==> holds(s[i])
  {
    forall i | 1 <= i < |s|
      ensures holds(s[i])
    {
      assert s[1..][i - 1] == s[i];
    }
  }

  /** An element of the tail is an element of the sequence. */
  lemma InTail<T>(s: seq<T>, x: T)
    requires |s| > 0 && x in s[1..]
    ensures x in s
  {
    var i :| 0 <= i < |s[1..]| && s[1..][i] == x;
    assert s[i + 1] == x;
  }

  /** An element of the tail that fails a property is an element of the
      sequence that fails it. */
  lemma FailsInTail<T>(s: seq<T>, holds: T -> bool)
    requires |s| > 0
    requires exists i :: 0 <= i < |s[1..]| && !holds(s[1..][i])
    ensures exists i :: 0 <= i < |s| && !holds(s[i])
  {
    var i :| 0 <= i < |s[1..]| && !holds(s[1..][i]);
    assert s[i + 1] == s[1..][i];
  }

  /** A property of the first `k` elements holds of the first `k - 1`
      elements of the tail. */
  lemma HoldsBeforeInTail<T>(s: seq<T>, k: nat, holds: T -> bool)
    requires 0 < k <= |s|
    requires forall j :: 0 <= j < k ==> holds(s[j])
    ensures forall j :: 0 <= j < k - 1 ==> holds(s[1..][j])
  {
    forall j | 0 <= j < k - 1
      ensures holds(s[1..][j])
    {
      assert s[1..][j] == s[j + 1];
    }
  }
}

=== FILE: sidecars.dfy ===
/** Names derived from a video's path: the thumbnail published beside the
    master (`<stem>.jpg`) and the quality derivatives (`<stem>#<suffix>.mp4`),
    which playback looks up by the same rule. */
module Sidecars {
  import opened Strings
  import opened GoPath

  /** The thumbnail path of a video: `pathWithoutExtension(video) + ".jpg"`
      (app/app.go, upload and import). */
  function ThumbnailPath(video: string): (thumbnail: string)
    ensures Ext(video) != ".jpg" ==> thumbnail != video
  {
    ExtOfDottedSuffix(PathWithoutExtension(video), ".jpg");
    PathWithoutExtension(video) + ".jpg"
  }

  /** The derivative path of a master for one quality suffix, built as
      `strings.TrimSuffix(master, filepath.Ext(master)) + "#" + suffix + ".mp4"`. */
  function DerivativePath(master: string, suffix: string): (derivative: string)
    ensures derivative != master
  {
    var stem := TrimSuffix(master, Ext(master));
    var tail := "#" + suffix + ".mp4";
    TrimOwnExtension(master);
    PathStemRoundTrip(master);
    // Where the master's extension begins, the derivative has '#' and the
    // master has '.' (or has already ended).
    assert (stem + tail)[|stem|] == '#';
    assert Ext(master) != [] ==> master[|stem|] == Ext(master)[0] == '.';
    stem + tail
  }

  /** Trimming a path's own extension is pathWithoutExtension. */
  lemma TrimOwnExtension(p: string)
    ensures TrimSuffix(p, Ext(p)) == PathWithoutExtension(p)
  {
  }

  /** The thumbnail shares the video's stem and has the extension ".jpg". */
  lemma {:induction false} ThumbnailSharesStem(video: string)
    ensures Ext(ThumbnailPath(video)) == ".jpg"
    ensures PathWithoutExtension(ThumbnailPath(video)) == PathWithoutExtension(video)
  {
    ExtOfDottedSuffix(PathWithoutExtension(video), ".jpg");
  }

  /** A derivative is an ".mp4" file whose stem is the master's stem followed
      by `#` and the suffix, whatever the suffix holds. */
  lemma {:induction false} DerivativeShape(master: string, suffix: string)
    ensures Ext(DerivativePath(master, suffix)) == ".mp4"
    ensures PathWithoutExtension(DerivativePath(master, suffix))
         == PathWithoutExtension(master) + "#" + suffix
  {
    var trimmed := PathWithoutExtension(master);
    var stem := trimmed + "#" + suffix;
    var d := DerivativePath(master, suffix);
    assert d == stem + ".mp4" by {
      TrimOwnExtension(master);
      ConcatAssociative(trimmed, "#" + suffix, ".mp4");
      ConcatAssociative(trimmed, "#", suffix);
    }
    ExtOfDottedSuffix(stem, ".mp4");
    assert PathWithoutExtension(d) == stem by {
      assert d[..|d| - |".mp4"|] == stem;
    }
  }

  /** Distinct suffixes give distinct derivatives of one master. */
  lemma {:induction false} DerivativesDistinct(master: string, s1: string, s2: string)
    requires s1 != s2
    ensures DerivativePath(master, s1) != DerivativePath(master, s2)
  {
    DerivativeShape(master, s1);
    DerivativeShape(master, s2);
    var stem := PathWithoutExtension(master) + "#";
    assert stem + s1 == PathWithoutExtension(master) + "#" + s1;
    assert stem + s2 == PathWithoutExtension(master) + "#" + s2;
    assert (stem + s1)[|stem|..] == s1 && (stem + s2)[|stem|..] == s2;
  }
}

=== FILE: strings.dfy ===
/** The few operations of Go's `strings` package and of Go's string
    ordering that the application layer relies on. */
module Strings {

  /** `suffix` is a suffix of `s` (Go's strings.HasSuffix). */
  predicate EndsWith(s: string, suffix: string) {
    |suffix| <= |s| && s[|s| - |suffix|..] == suffix
  }

  /** A string is what precedes one of its suffixes, then that suffix. */
  lemma SplitBeforeSuffix(s: string, suffix: string)
    requires EndsWith(s, suffix)
    ensures s == s[..|s| - |suffix|] + suffix
  {
  }

  /** Regrouping a concatenation of three strings. */
  lemma ConcatAssociative(a: string, b: string, c: string)
    ensures a + (b + c) == (a + b) + c
  {
  }

  /** Go's strings.TrimSuffix: drops `suffix` when `s` ends with it,
      otherwise leaves `s` alone. */
  function TrimSuffix(s: string, suffix: string): (r: string)
    ensures EndsWith(s, suffix) ==> r + suffix == s
    ensures !EndsWith(s, suffix) ==> r == s
  {
    if EndsWith(s, suffix) then s[..|s| - |suffix|] else s
  }

  /** Go's strings.ToLower restricted to ASCII letters. */
  function LowerChar(c: char): char {
    if 'A' <= c <= 'Z' then (c as int - 'A' as int + 'a' as int) as char else c
  }

  /** Lower-cases every ASCII capital and leaves every other character as it
      is, position by position. */
  function Lower(s: string): (r: string)
    ensures |r| == |s|
    ensures forall i :: 0 <= i < |r| ==> !('A' <= r[i] <= 'Z')
    ensures forall i :: 0 <= i < |s| && !('A' <= s[i] <= 'Z') ==> r[i] == s[i]
    ensures forall i :: 0 <= i < |s| && 'A' <= s[i] <= 'Z' ==>
      r[i] as int == s[i] as int + ('a' as int - 'A' as int)
  {
    seq(|s|, i requires 0 <= i < |s| => LowerChar(s[i]))
  }

  /** Lower-casing twice is lower-casing once. */
  lemma LowerIdempotent(s: string)
    ensures Lower(Lower(s)) == Lower(s)
  {
  }

  /** Go's `<=` on strings: byte-wise lexicographic order. Dafny characters
      are Unicode scalar values, whose order is the order of their UTF-8
      encodings, so comparing characters compares the bytes Go compares. */
  predicate LexLeq(a: string, b: string)
    ensures a <= b ==> LexLeq(a, b)
  {
    |a| == 0 || (|b| > 0 && (a[0] < b[0] || (a[0] == b[0] && LexLeq(a[1..], b[1..]))))
  }

  lemma {:induction false} LexLeqReflexive(a: string)
    ensures LexLeq(a, a)
  {
    if |a| > 0 {
      LexLeqReflexive(a[1..]);
    }
  }

  lemma {:induction false} LexLeqTotal(a: string, b: string)
    ensures LexLeq(a, b) || LexLeq(b, a)
  {
    if |a| > 0 && |b| > 0 && a[0] == b[0] {
      LexLeqTotal(a[1..], b[1..]);
    }
  }

  lemma {:induction false} LexLeqTransitive(a: string, b: string, c: string)
    requires LexLeq(a, b) && LexLeq(b, c)
    ensures LexLeq(a, c)
  {
    if |a| > 0 && a[0] == b[0] && b[0] == c[0] {
      LexLeqTransitive(a[1..], b[1..], c[1..]);
    }
  }

  lemma {:induction false} LexLeqAntisymmetric(a: string, b: string)
    requires LexLeq(a, b) && LexLeq(b, a)
    ensures a == b
  {
    if |a| > 0 {
      LexLeqAntisymmetric(a[1..], b[1..]);
    }
  }
}

=== FILE: upload.dfy ===
/** The POST branch of `uploadHandler` (app/app.go) as a step machine: every
    external step (staging, transcoding, thumbnailing, renaming, scaling) is
    reduced to whether it succeeded, and the state is the set of files
    present in the library. */
module Upload {
  import opened Wrappers
  import opened Strings
  import opened GoPath
  import opened Sidecars
  import opened Collisions
  import opened Library
  import opened Publishing
  import opened Sequences
  import opened Requests

  /** preserveUploadFilenameIsEnabled: the global switch or the target
      collection's own. A target that is not configured contributes Go's
      zero value, false. */
  function PreserveUploadFilenameIsEnabled(globalPreserve: bool, paths: map<string, Collection>,
                                           target: string): (enabled: bool)
    ensures globalPreserve ==> enabled
    ensures target !in paths ==> enabled == globalPreserve
    ensures target in paths ==> (enabled <==> globalPreserve || paths[target].preserveUploadFilename)
  {
    globalPreserve || (target in paths && paths[target].preserveUploadFilename)
  }

  /** Why an upload request stopped. */
  datatype UploadFailure =
    | InvalidLibraryPath
    | FormFileMissing
    | StagingFailed
    | ScratchPathRejected
    | ScratchCreateFailed
    | TranscodeFailed
    | ThumbnailFailed
    | ThumbnailRenameFailed
    | VideoRenameFailed
    | ScaleFailed(profile: Profile)
    | ScaledRenameFailed(profile: Profile)

  /** Whether each external step of an upload succeeds: copying the form
      file to scratch, SecureJoin of the scratch name, os.Create, the
      transcoder, the thumbnailer, the two renames, and per profile the
      scaler and the rename of its output. `profiles` lists
      `Transcoder.Sizes` in the (unspecified) order Go's map iteration
      yields. */
  datatype UploadEffects = UploadEffects(
    stagingOk: bool,
    scratchPathOk: bool,
    createOk: bool,
    transcodeOk: bool,
    thumbnailOk: bool,
    thumbnailRenameOk: bool,
    videoRenameOk: bool,
    profiles: seq<Profile>,
    scaleOk: Profile -> bool,
    scaledRenameOk: Profile -> bool)

  /** Every step of the upload succeeds. */
  predicate AllStepsSucceed(fx: UploadEffects) {
    && fx.stagingOk && fx.scratchPathOk && fx.createOk && fx.transcodeOk && fx.thumbnailOk
    && fx.thumbnailRenameOk && fx.videoRenameOk
    && forall i :: 0 <= i < |fx.profiles| ==> fx.scaleOk(fx.profiles[i]) && fx.scaledRenameOk(fx.profiles[i])
  }

  /** The steps before the two renames into the library succeed: staging,
      the scratch path, the scratch file, the transcoder and the
      thumbnailer. */
  predicate Prepared(fx: UploadEffects) {
    fx.stagingOk && fx.scratchPathOk && fx.createOk && fx.transcodeOk && fx.thumbnailOk
  }

  /** The resize loop: per profile, scale the staged upload, then rename the
      result next to the master; the first failure ends the request and
      leaves whatever was already published in place. */
  function PublishDerivatives(published: set<string>, master: string, profiles: seq<Profile>,
                              scaleOk: Profile -> bool, renameOk: Profile -> bool): (r: Run<UploadFailure>)
    ensures published <= r.published <= published + DerivativeSet(master, profiles)
    ensures r.status.Pass? <==>
      forall i :: 0 <= i < |profiles| ==> scaleOk(profiles[i]) && renameOk(profiles[i])
    ensures r.status.Pass? ==> r.published == published + DerivativeSet(master, profiles)
    ensures r.status.Fail? ==>
      (r.status.error.ScaleFailed? || r.status.error.ScaledRenameFailed?) && r.status.error.profile in profiles
    ensures r.status.Fail? && r.status.error.ScaleFailed? ==> !scaleOk(r.status.error.profile)
    ensures r.status.Fail? && r.status.error.ScaledRenameFailed? ==>
      scaleOk(r.status.error.profile) && !renameOk(r.status.error.profile)
    decreases |profiles|
  {
    DerivativeSetSplit(master, profiles);
    if |profiles| == 0 then Run(published, Pass)
    else
      var p := profiles[0];
      if !scaleOk(p) then Run(published, Fail(ScaleFailed(p)))
      else if !renameOk(p) then Run(published, Fail(ScaledRenameFailed(p)))
      else
        var r := PublishDerivatives(published + {DerivativePath(master, p.suffix)}, master, profiles[1..], scaleOk, renameOk);
        if r.status.Fail? then
          InTail(profiles, r.status.error.profile);
          FailsInTail(profiles, q => scaleOk(q) && renameOk(q));
          r
        else
          HoldsForAll(profiles, q => scaleOk(q) && renameOk(q));
          r
  }

  /** The loop stops at the first failing profile: the request fails on
      that profile's own step, and exactly the derivatives of the profiles
      before it are in the library. */
  lemma {:induction false} FirstDerivativeFailure(published: set<string>, master: string, profiles: seq<Profile>,
                                                  scaleOk: Profile -> bool, renameOk: Profile -> bool, k: nat)
    requires k < |profiles|
    requires forall j :: 0 <= j < k ==> scaleOk(profiles[j]) && renameOk(profiles[j])
    requires !(scaleOk(profiles[k]) && renameOk(profiles[k]))
    ensures PublishDerivatives(published, master, profiles, scaleOk, renameOk)
         == Run(published + DerivativeSet(master, profiles[..k]),
                Fail(if scaleOk(profiles[k]) then ScaledRenameFailed(profiles[k]) else ScaleFailed(profiles[k])))
    decreases k
  {
    if k == 0 {
      assert profiles[..0] == [];
      DerivativeSetSplit(master, []);
    } else {
      var d := DerivativePath(master, profiles[0].suffix);
      HoldsBeforeInTail(profiles, k, q => scaleOk(q) && renameOk(q));
      assert profiles[1..][k - 1] == profiles[k];
      FirstDerivativeFailure(published + {d}, master, profiles[1..], scaleOk, renameOk, k - 1);
      assert DerivativeSet(master, profiles[..k]) == {d} + DerivativeSet(master, profiles[1..][..k - 1]) by {
        assert profiles[..k][1..] == profiles[1..][..k - 1];
        DerivativeSetSplit(master, profiles[..k]);
      }
    }
  }

  /** From staging to the end of the resize loop, for a master path already
      chosen. The thumbnail (`pathWithoutExtension(master) + ".jpg"`) is
      renamed into the library first and the master second; a failure of any
      earlier step leaves the library as it was. */
  function Publish(published: set<string>, master: string, fx: UploadEffects): (r: Run<UploadFailure>)
    ensures published <= r.published
      <= published + {ThumbnailPath(master), master} + DerivativeSet(master, fx.profiles)
    ensures r.status.Pass? <==> AllStepsSucceed(fx)
    ensures r.status.Pass? ==>
      r.published == published + {ThumbnailPath(master), master} + DerivativeSet(master, fx.profiles)
  {
    var thumbnail := ThumbnailPath(master);
    if !fx.stagingOk then Run(published, Fail(StagingFailed))
    else if !fx.scratchPathOk then Run(published, Fail(ScratchPathRejected))
    else if !fx.createOk then Run(published, Fail(ScratchCreateFailed))
    else if !fx.transcodeOk then Run(published, Fail(TranscodeFailed))
    else if !fx.thumbnailOk then Run(published, Fail(ThumbnailFailed))
    else if !fx.thumbnailRenameOk then Run(published, Fail(ThumbnailRenameFailed))
    else if !fx.videoRenameOk then Run(published + {thumbnail}, Fail(VideoRenameFailed))
    else PublishDerivatives(published + {thumbnail, master}, master, fx.profiles, fx.scaleOk, fx.scaledRenameOk)
  }

  /** A failure of any step up to and including the thumbnail rename
      (staging, scratch path, scratch file, transcode, thumbnail, thumbnail
      rename) fails the request and leaves the library unchanged. */
  lemma FailureBeforePublishLeavesLibrary(published: set<string>, master: string, fx: UploadEffects)
    requires !(Prepared(fx) && fx.thumbnailRenameOk)
    ensures Publish(published, master, fx).status.Fail?
    ensures Publish(published, master, fx).published == published
  {
  }

  /** The thumbnail goes in before the master: whenever the run has put the
      master into the library, the thumbnail is there too. */
  lemma MasterImpliesThumbnail(published: set<string>, master: string, fx: UploadEffects)
    requires master !in published
    requires master in Publish(published, master, fx).published
    ensures ThumbnailPath(master) in Publish(published, master, fx).published
  {
  }

  /** Once both renames have succeeded, the master and its thumbnail stay
      in the library whatever the resize loop does: a failing scaler or
      derivative rename stops the loop but removes nothing. */
  lemma DerivativeFailureKeepsMaster(published: set<string>, master: string, fx: UploadEffects)
    requires Prepared(fx) && fx.thumbnailRenameOk && fx.videoRenameOk
    ensures ThumbnailPath(master) in Publish(published, master, fx).published
    ensures master in Publish(published, master, fx).published
  {
  }

  /** A failing master rename leaves only the thumbnail behind. */
  lemma VideoRenameFailureLeavesThumbnail(published: set<string>, master: string, fx: UploadEffects)
    requires Prepared(fx) && fx.thumbnailRenameOk && !fx.videoRenameOk
    ensures Publish(published, master, fx) == Run(published + {ThumbnailPath(master)}, Fail(VideoRenameFailed))
  {
  }

  /** The successful result does not depend on the order in which the
      profiles are visited. */
  lemma {:induction false} ProfileOrderIrrelevant(published: set<string>, master: string,
                                                  fx: UploadEffects, fx': UploadEffects)
    requires fx' == fx.(profiles := fx'.profiles)
    requires forall p :: p in fx.profiles <==> p in fx'.profiles
    requires Publish(published, master, fx).status.Pass? && Publish(published, master, fx').status.Pass?
    ensures Publish(published, master, fx).published == Publish(published, master, fx').published
  {
    assert DerivativeSet(master, fx.profiles) == DerivativeSet(master, fx'.profiles);
  }

  /** A derivative the upload published is what playback streams for that
      quality: the lookup finds the file, so nothing is encoded on the fly. */
  lemma {:induction false} PublishedDerivativeIsPlayedBack(published: set<string>, master: string,
                                                           fx: UploadEffects, p: Profile)
    requires Publish(published, master, fx).status.Pass?
    requires p in fx.profiles && p.suffix in Qualities
    ensures var library := Publish(published, master, fx).published;
      SelectPlayback(master, p.suffix, f => f in library)
        == Playback(DerivativePath(master, p.suffix), false)
  {
    assert Lower(p.suffix) == p.suffix;
    assert DerivativePath(master, p.suffix) in DerivativeSet(master, fx.profiles);
  }

  /** The whole POST branch: the target must be a configured collection and
      the form must carry a file; the master's name comes from
      newVideoFileName over the upload's own file name, checked against the
      target directory and the upload directory; `join` stands for
      filepath.Join. `None` is the naming loop still running when the token
      stream ends. */
  function UploadHandler(paths: map<string, Collection>, target: string, uploadFilename: Option<string>,
                         fs: FileSystem, uploadPath: string, tokens: seq<string>,
                         join: (string, string) -> string, fx: UploadEffects,
                         published: set<string>): (r: Option<Run<UploadFailure>>)
    ensures target !in paths ==> r == Some(Run(published, Fail(InvalidLibraryPath)))
    ensures target in paths && uploadFilename.None? ==> r == Some(Run(published, Fail(FormFileMissing)))
    ensures r.Some? && r.value.status.Pass? ==>
      exists name :: EndsWith(name, ".mp4")
        && !FileExistsAtAnyLocation(fs, name, [target, uploadPath]).found
        && var master := join(target, name);
           r.value.published == published + {ThumbnailPath(master), master} + DerivativeSet(master, fx.profiles)
  {
    if target !in paths then Some(Run(published, Fail(InvalidLibraryPath)))
    else if uploadFilename.None? then Some(Run(published, Fail(FormFileMissing)))
    else
      match NewVideoFileName(fs, uploadFilename.value, [target, uploadPath], tokens)
      case None => None
      case Some(naming) => Some(Publish(published, join(target, naming.name), fx))
  }

  /** The master's name starts from the uploaded file's own name: a free
      `basenameWithoutExtension(file) + ".mp4"` is kept, and otherwise the
      name is a retry built from that stem and a token. Without a file name
      the first token names the first try. */
  lemma UploadNameFromFileName(paths: map<string, Collection>, target: string, uploadFilename: Option<string>,
                               fs: FileSystem, uploadPath: string, tokens: seq<string>,
                               join: (string, string) -> string, fx: UploadEffects,
                               published: set<string>)
    requires target in paths && uploadFilename.Some?
    ensures var r := UploadHandler(paths, target, uploadFilename, fs, uploadPath, tokens, join, fx, published);
      var file := uploadFilename.value;
      var locations := [target, uploadPath];
      r.Some? ==> exists name ::
        && r.value == Publish(published, join(target, name), fx)
        && !FileExistsAtAnyLocation(fs, name, locations).found
        && (file != "" ==>
              name == BasenameWithoutExtension(file) + ".mp4"
              || exists i :: 0 <= i < |tokens| && name == RetryName(file, tokens[i]))
        && (file != "" && !FileExistsAtAnyLocation(fs, BasenameWithoutExtension(file) + ".mp4", locations).found ==>
              name == BasenameWithoutExtension(file) + ".mp4")
        && (file == "" ==>
              |tokens| > 0
              && (name == tokens[0] + ".mp4" || exists i :: 1 <= i < |tokens| && name == RetryName(file, tokens[i])))
  {
    var r := UploadHandler(paths, target, uploadFilename, fs, uploadPath, tokens, join, fx, published);
    if r.Some? {
      var naming := NewVideoFileName(fs, uploadFilename.value, [target, uploadPath], tokens).value;
      assert r.value == Publish(published, join(target, naming.name), fx);
    }
  }

  /** The upload never consults preserveUploadFilenameIsEnabled: two
      libraries that configure the same collections answer an upload alike,
      whatever their per-collection switches say (and the global switch is
      not an input at all), even when the switch itself reads differently. */
  lemma PreserveSwitchIgnored(paths: map<string, Collection>, paths': map<string, Collection>,
                              target: string, uploadFilename: Option<string>,
                              fs: FileSystem, uploadPath: string, tokens: seq<string>,
                              join: (string, string) -> string, fx: UploadEffects,
                              published: set<string>)
    requires paths.Keys == paths'.Keys
    ensures UploadHandler(paths, target, uploadFilename, fs, uploadPath, tokens, join, fx, published)
         == UploadHandler(paths', target, uploadFilename, fs, uploadPath, tokens, join, fx, published)
  {
  }
}

=== FILE: wrappers.dfy ===
/** Failure-carrying values used across the model: Go's `(value, error)`
    pairs and "did this step succeed" outcomes. */
module Wrappers {

  /** A value that may be missing. */
  datatype Option<+T> = None | Some(value: T)

  /** A value or the message of the Go `error` returned instead. */
  datatype Result<+T> = Ok(value: T) | Err(error: string)

  /** Success, or the reason a request stopped. */
  datatype Outcome<+E> = Pass | Fail(error: E)
}
